=== FILE: README.md ===
# Tour of Heroes: message log, hero service and search pipeline

A Dafny model of the three pieces of the Angular "Tour of Heroes" application that carry logic.

- **`MessageService`** (module `Messages`) is the application-wide message log. It is an append-only list of strings with `add` and `clear`. It is a class with a `seq<string>` field, and a pure `Replay` of a sequence of `add`/`clear` calls states what the log holds after them.
- **`HeroService`** (module `HeroServices`) is the data-access service for the heroes web API at `api/heroes`. Each call:
  - builds one request (verb, URL, headers, body);
  - takes the transport's `Outcome` for it (`Ok(value)` or `Err(message)`, supplied by the caller);
  - on success, passes the value on unchanged and logs one `HeroService: ` line;
  - on failure, goes through `handleError`, which logs `HeroService: <operation> failed: <message>` and yields the call's fallback (the empty list, or absent) instead of an error.

  A pure function `...Call` per operation states the request, the value and the log lines. The methods of class `HeroService` perform the call on a shared `MessageService`, and their contracts tie them to those functions.
- **`HeroSearchComponent`** (modules `HeroSearch` and `HeroSearchProofs`) is the search box. `search(term)` pushes the term into a subject. `ngOnInit` pipes the subject through `debounceTime(300)`, then `distinctUntilChanged()`, then `switchMap(searchHeroes)`.
  - Time and the transport become a finite trace of events: `Submit(t, term)`, `Tick(t)` and `Complete(k, outcome)`. `k` is the number of the lookup answered; lookups are numbered in issue order.
  - The pipeline is a step function on a `State`: the pending term and its deadline, the last term let through, and the awaited lookup. Its outputs are the issued lookups, the requests sent, the delivered results and the log lines.
  - The main theorem compares the step function with a declarative reference stated on the trace alone. The issued lookups are exactly the terms that settle (no newer submission before their 300 ms deadline passes), with consecutive repeats removed.

Hero ids are rendered in URLs and log lines as a template literal renders a whole number in plain decimal notation. Module `Decimal` writes that text and parses it back, which shows that different ids never share a URL or a log line.

Two behaviours of the code are kept as written:
- `addHero` logs the id of the hero it was given, not the id of the hero the server returns.
- The `\w` in its log text is an unknown escape in a template literal, so it renders as a plain `w`: `added hero w id=<id>`.

Three behaviours of the code worth stating:
- `distinctUntilChanged()` compares terms by exact string equality, with no trimming. Trimming happens only inside `searchHeroes`.
- A blank term that settles and passes the distinct filter still reaches `switchMap`. It starts a new lookup, which supersedes any lookup still in flight. `searchHeroes` then yields `[]` at once, sends no request and logs nothing.
- Every log line of the service carries the `HeroService: ` prefix, failure lines included.

## Model

| member | source | states |
|---|---|---|
| Messages.MessageService.constructor | src/app/message.service.ts:11 | the log starts empty |
| Messages.MessageService.Add | src/app/message.service.ts:15-17 | `add(m)` appends exactly `m` after the earlier entries, which are unchanged; the length grows by exactly one |
| Messages.MessageService.Clear | src/app/message.service.ts:19-21 | after `clear()` the log is empty, whatever it held |
| Messages.Replay | src/app/message.service.ts:11-21 | the log holds only messages it started with or that an `add` call brought; with no `clear` among the calls it keeps its old entries and grows by one per call; after a final `clear` it is empty |
| Messages.Apply | src/app/message.service.ts:15-21 | making the calls one by one on a `MessageService` leaves in it exactly the replayed log |
| Messages.ReplayAppend | src/app/message.service.ts:11-21 | replaying two batches of calls is replaying the second from where the first left off |
| Messages.ReplayWithoutClear | src/app/message.service.ts:15-17 | with no `clear` among the calls, the added messages are appended after the existing ones, in call order |
| Messages.SinceLastClear | src/app/message.service.ts:11-21 | the log holds exactly the messages added since the last `clear`, in the order of the `add` calls, and nothing older |
| Messages.AddGrowsByOne | src/app/message.service.ts:16 | one more `add` makes the replayed log exactly one longer and keeps its earlier entries |
| Messages.ClearIdempotent | src/app/message.service.ts:19-21 | clearing twice leaves the same (empty) log as clearing once |
| Decimal.IdText | src/app/hero.service.ts:183 | canonical decimal text: a `-` first exactly when the id is negative, then digits with no leading zero (a lone `0` for zero) |
| Decimal.ParseIdText | src/app/hero.service.ts:183 | round trip: the text of any id reads back as that id |
| Decimal.IdTextInjective | src/app/hero.service.ts:185 | two ids have the same text exactly when they are equal |
| HeroServices.LogLine | src/app/hero.service.ts:319-321 | a logged line is `HeroService: ` followed by the message, unchanged |
| HeroServices.HeroUrl | src/app/hero.service.ts:183 | the URL of one hero is `api/heroes/` followed by the text of its id |
| HeroServices.SearchUrl | src/app/hero.service.ts:272 | a search URL is `api/heroes/?name=` followed by the term as given, untrimmed |
| HeroServices.TrimStart | src/app/hero.service.ts:268 | the result is a suffix of the input; everything removed is white space and the result does not start with white space |
| HeroServices.TrimEnd | src/app/hero.service.ts:268 | the result is a prefix of the input; everything removed is white space and the result does not end with white space |
| HeroServices.BlankIffAllWhitespace | src/app/hero.service.ts:268 | a term is blank (`!term.trim()`) exactly when every character of it is white space |
| HeroServices.Trim | src/app/hero.service.ts:268 | `term.trim()` is a piece of the term with only white space before and after it, and it neither starts nor ends with white space |
| HeroServices.SearchRequest | src/app/hero.service.ts:267-272 | no request exactly when the term is blank; otherwise a GET of `api/heroes/?name=<term>` with no headers and no body |
| HeroServices.FailureLine | src/app/hero.service.ts:311 | the failure line is `HeroService: `, then the operation name, then ` failed: `, then the error message, unchanged |
| HeroServices.SearchLine | src/app/hero.service.ts:273-275 | the success line of a search ends with the term in double quotes and starts with `found heroes matching "` exactly when some hero matched, otherwise with `no heroes matching "` |
| HeroServices.IdOf | src/app/hero.service.ts:249 | `deleteHero` uses a bare id as given and takes the id of a hero |
| HeroServices.Piped | src/app/hero.service.ts:304-316 | the request goes out and exactly one line is logged; a success passes its value on unchanged with its success line; a failure yields the fallback (absent when none is given) with the line `<operation> failed: <message>` |
| HeroServices.GetHeroesCall | src/app/hero.service.ts:141-154 | GET `api/heroes`; on success the heroes and `fetched heroes`; on failure the empty list and `getHeroes() failed: <message>` |
| HeroServices.GetHeroCall | src/app/hero.service.ts:171-188 | GET `api/heroes/<id>`; on success the hero and `fetched hero id=<id>`; on failure absent and `getHero(id=<id>) failed: <message>` |
| HeroServices.AddHeroCall | src/app/hero.service.ts:205-210 | POST `api/heroes` with the JSON header and the hero as body; on success the server's hero and `added hero w id=<id of the hero sent>`; on failure absent and `addHero() failed: <message>` |
| HeroServices.UpdateHeroCall | src/app/hero.service.ts:229-234 | PUT `api/heroes` (no id in the path) with the JSON header and the whole hero as body; on success the response and `updated Hero id=<id>`; on failure absent and `updateHero(hero: Hero) failed: <message>` |
| HeroServices.DeleteHeroCall | src/app/hero.service.ts:248-256 | DELETE `api/heroes/<id>` with the JSON header and no body; on success the response and `deleted Hero id=<id>`; on failure absent and `deleteHero(hero: Hero \| number) failed: <message>` |
| HeroServices.SearchHeroesCall | src/app/hero.service.ts:267-278 | a blank term yields `[]` with no request and no log line; otherwise GET `api/heroes/?name=<term>`, the heroes and `found heroes matching "<term>"` exactly when the result is non-empty, else `no heroes matching "<term>"`; on failure `[]` and `searchHeroes failed: <message>` |
| HeroServices.DeleteByIdOrHeroAgree | src/app/hero.service.ts:248-253 | `deleteHero(n)` and `deleteHero(hero)` with `hero.id == n` make the same request, yield the same value and log the same line; the URL is `api/heroes/<n>` |
| HeroServices.HeroUrlsDistinct | src/app/hero.service.ts:183 | two heroes share a URL exactly when they have the same id |
| HeroServices.SearchUrlIsNoHeroUrl | src/app/hero.service.ts:272 | a search URL is never the URL of a single hero |
| HeroServices.AddHeroLogsSentId | src/app/hero.service.ts:205-208 | when the server returns a hero with a different id, `addHero` passes that hero on but its log line does not name the new id |
| HeroServices.FailedReadLogsNoSuccessLine | src/app/hero.service.ts:304-316 | for `getHeroes`, `getHero` and a non-blank `searchHeroes`, the line logged on failure differs from the line logged on success |
| HeroServices.FailedSaveLogsNoSuccessLine | src/app/hero.service.ts:304-316 | for `addHero`, `updateHero` and `deleteHero`, the line logged on failure differs from the line logged on success |
| HeroServices.HeroService.constructor | src/app/hero.service.ts:111-114 | the service logs to the given MessageService; nothing has been reported yet |
| HeroServices.HeroService.Log | src/app/hero.service.ts:319-321 | `log(m)` appends exactly `HeroService: m` to the shared message log |
| HeroServices.HeroService.HandleError | src/app/hero.service.ts:304-316 | reports the error once on the diagnostic channel, appends `HeroService: <operation> failed: <message>` and yields the given result |
| HeroServices.HeroService.GetHeroes | src/app/hero.service.ts:141-154 | the request, result and appended log lines are those of `GetHeroesCall`; a failure is reported once |
| HeroServices.HeroService.GetHero | src/app/hero.service.ts:171-188 | the request, result and appended log lines are those of `GetHeroCall`; a failure is reported once |
| HeroServices.HeroService.AddHero | src/app/hero.service.ts:205-210 | the request, result and appended log lines are those of `AddHeroCall`; a failure is reported once |
| HeroServices.HeroService.UpdateHero | src/app/hero.service.ts:229-234 | the request, result and appended log lines are those of `UpdateHeroCall`; a failure is reported once |
| HeroServices.HeroService.DeleteHero | src/app/hero.service.ts:248-256 | the request, result and appended log lines are those of `DeleteHeroCall`; a failure is reported once |
| HeroServices.HeroService.SearchHeroes | src/app/hero.service.ts:267-278 | the request, result and appended log lines are those of `SearchHeroesCall`; a blank term reports nothing, a failure is reported once |
| HeroSearch.HeroSearchComponent.constructor | src/app/hero-search/hero-search.component.ts:22 | no term has been pushed and the pipeline is in its initial state |
| HeroSearch.HeroSearchComponent.Search | src/app/hero-search/hero-search.component.ts:40-42 | `search(term)` pushes the term unchanged, one event per call, and the pipeline takes one step on it |
| HeroSearch.HeroSearchComponent.Tick | src/app/hero-search/hero-search.component.ts:75 | the scheduler running lets a due debounce timer fire; no term is pushed |
| HeroSearch.HeroSearchComponent.Respond | src/app/hero-search/hero-search.component.ts:81 | an answer from the transport takes one pipeline step; the line that step logs, if any, goes to the shared message log |
| HeroSearch.Issue | src/app/hero-search/hero-search.component.ts:81 | a term reaching switchMap is issued as the next lookup; a non-blank one sends its GET and becomes the only awaited lookup, replacing any other; a blank one delivers [] at once and leaves nothing awaited |
| HeroSearch.Settle | src/app/hero-search/hero-search.component.ts:78-81 | a settled term is remembered by the distinct filter and issued exactly when it differs from the term let through before |
| HeroSearch.Flush | src/app/hero-search/hero-search.component.ts:75 | once its deadline has come the pending term leaves the debounce timer and becomes the term the distinct filter remembers, with the log untouched; before that nothing changes |
| HeroSearch.Deliver | src/app/hero-search/hero-search.component.ts:81 | an answer for the awaited lookup is delivered once and ends the wait; an answer for any other lookup changes nothing |
| HeroSearch.Step | src/app/hero-search/hero-search.component.ts:72-83 | a submission restarts the debounce timer with deadline time + 300; only answers write to the log; an event issues at most one lookup and keeps the earlier ones |
| HeroSearch.Run | src/app/hero-search/hero-search.component.ts:72-83 | over a trace the issued lookups only grow, by at most one per event, keeping the earlier ones in order |
| HeroSearchProofs.RequestsForAreSearches | src/app/hero.service.ts:272 | every request the search box sends is a GET with no headers and no body, at most one per issued lookup |
| HeroSearchProofs.NonBlankTermsEachSendOne | src/app/hero.service.ts:268-272 | when no issued term is blank, each lookup sends exactly one request |
| HeroSearchProofs.RunAppend | src/app/hero-search/hero-search.component.ts:72-83 | running two traces one after the other is running their concatenation |
| HeroSearchProofs.RunRemembersLastLookup | src/app/hero-search/hero-search.component.ts:78 | after any trace the distinct filter compares with the newest issued lookup |
| HeroSearchProofs.DistinctSnoc | src/app/hero-search/hero-search.component.ts:78 | one more settled term is let through unless it equals the one before it |
| HeroSearchProofs.DistinctHasNoRepeats | src/app/hero-search/hero-search.component.ts:78 | the distinct filter's output never holds the same term twice in a row; the first term always passes and the last term is the last output |
| HeroSearchProofs.IssueBlankKeepsValid | src/app/hero.service.ts:268-271 | issuing a blank term keeps the pipeline's invariant (what the issue itself does is stated by `HeroSearch.Issue`) |
| HeroSearchProofs.IssueRequestKeepsValid | src/app/hero-search/hero-search.component.ts:81 | issuing a non-blank term keeps the pipeline's invariant (what the issue itself does is stated by `HeroSearch.Issue`) |
| HeroSearchProofs.SettleKeepsValid | src/app/hero-search/hero-search.component.ts:78-81 | a settling term keeps the pipeline's invariant |
| HeroSearchProofs.FlushKeepsValid | src/app/hero-search/hero-search.component.ts:75 | a debounce timer firing keeps the pipeline's invariant |
| HeroSearchProofs.DeliverKeepsValid | src/app/hero-search/hero-search.component.ts:81 | an answer keeps the pipeline's invariant |
| HeroSearchProofs.StepKeepsValid | src/app/hero-search/hero-search.component.ts:72-83 | every event keeps the pipeline's invariant: the last term let through is the last issued, only the newest lookup is awaited, one request per non-blank lookup, deliveries in issue order |
| HeroSearchProofs.RunKeepsValid | src/app/hero-search/hero-search.component.ts:72-83 | the invariant holds after any trace |
| HeroSearchProofs.DeliveredFollowIssueOrder | src/app/hero-search/hero-search.component.ts:63-67 | delivered results are never reordered: a subsequence of the issued lookups, at most one per lookup, each carrying its lookup's term |
| HeroSearchProofs.SwitchLatest | src/app/hero-search/hero-search.component.ts:59-67 | an answer is delivered exactly when it is for the newest lookup and that lookup is still awaited, with what `searchHeroes` makes of it and its one log line; any other answer changes nothing |
| HeroSearchProofs.SupersededAnswerIsDropped | src/app/hero-search/hero-search.component.ts:69-70 | after any trace, a late answer for a superseded lookup is neither delivered nor logged |
| HeroSearchProofs.DeliveryIsOfNewestLookup | src/app/hero-search/hero-search.component.ts:66-67 | whatever the event, a delivery it causes is of the lookup issued last |
| HeroSearchProofs.FlushDeliversNewest | src/app/hero-search/hero-search.component.ts:75-81 | a firing timer delivers at most the immediate [] of the blank lookup it has just issued |
| HeroSearchProofs.OnlyAnswersLog | src/app/hero-search/hero-search.component.ts:72-83 | submissions and timers never write to the message log |
| HeroSearchProofs.FlushOnlyAppends | src/app/hero-search/hero-search.component.ts:75-81 | a firing timer only appends to the issued lookups, requests and deliveries, and logs nothing |
| HeroSearchProofs.DeliverOnlyAppends | src/app/hero-search/hero-search.component.ts:81 | an answer issues and sends nothing, and only appends to the deliveries and the log |
| HeroSearchProofs.StepOnlyAppends | src/app/hero-search/hero-search.component.ts:69-70 | no event removes or changes an issued lookup, a sent request, a delivery or a log line |
| HeroSearchProofs.OutputsOnlyGrow | src/app/hero-search/hero-search.component.ts:69-70 | superseding does not un-issue: issued lookups, requests, deliveries and log lines are only ever appended to |
| HeroSearchProofs.SettledStep | src/app/hero-search/hero-search.component.ts:75 | one more event settles one more term exactly when the pending term's timer fires at it |
| HeroSearchProofs.PendingStep | src/app/hero-search/hero-search.component.ts:75 | a submission becomes the pending term with deadline time + 300 and replaces the previous one; a firing timer clears it |
| HeroSearchProofs.StepSettles | src/app/hero-search/hero-search.component.ts:75-78 | what one event does to the pending term, the last term let through and the issued lookups |
| HeroSearchProofs.AgreesStep | src/app/hero-search/hero-search.component.ts:72-83 | one event keeps the pipeline in agreement with the declarative reference |
| HeroSearchProofs.RunAgrees | src/app/hero-search/hero-search.component.ts:72-83 | after any trace the pending term, the last term let through and the issued lookups agree with the reference |
| HeroSearchProofs.IssuedAreDistinctSettledTerms | src/app/hero-search/hero-search.component.ts:72-83 | one lookup is issued per term that survives debounce and distinct, and no others, in order; a request is sent for each non-blank one |
| HeroSearchProofs.NoTermIssuedTwiceInARow | src/app/hero-search/hero-search.component.ts:78 | no two consecutive lookups are for the same term |
| HeroSearchProofs.BurstOthersDoNotSettle | src/app/hero-search/hero-search.component.ts:75 | after any earlier events, no submission of a burst (each under 300 ms after the one before) but the last settles |
| HeroSearchProofs.BurstLastSettles | src/app/hero-search/hero-search.component.ts:75 | the last submission of a burst settles at a tick 300 ms or more after it |
| HeroSearchProofs.BurstSettlesOnlyLast | src/app/hero-search/hero-search.component.ts:56-57 | after any earlier events, a burst followed by a quiet 300 ms adds exactly one settled term, its last |
| HeroSearchProofs.BurstHoldsLast | src/app/hero-search/hero-search.component.ts:75 | from any state, while a burst goes on nothing is issued after its first submission and its newest term is the pending one, due 300 ms after it |
| HeroSearchProofs.QuietTickIssuesPending | src/app/hero-search/hero-search.component.ts:75-81 | a tick at or after the pending deadline issues the pending term unless it repeats the last one; either way it is then the newest lookup |
| HeroSearchProofs.BurstIssuesOneLookup | src/app/hero-search/hero-search.component.ts:56-58 | after any earlier events, a burst followed by a quiet 300 ms issues at most one lookup beyond what its first submission issued, for its last term, which is then the newest lookup |
| HeroSearchProofs.BobRequest | src/app/hero.service.ts:272 | the lookup for `bob` sends exactly one request, a GET of `api/heroes/?name=bob` |
| HeroSearchProofs.TypingBobSendsOneRequest | src/app/hero-search/hero-search.component.ts:49-57 | typing `b`, `bo`, `bob` within 50 ms, then pausing, issues one lookup and sends one request, for `api/heroes/?name=bob` |

## Left out

- Angular decorators, dependency injection and the `providedIn: 'root'` singleton: the shared `MessageService` is passed to the constructors instead.
- `HttpClient`, the in-memory web API and any server: each call receives the transport's outcome as a parameter. Asynchrony is not modelled: a call's effects happen when its outcome is supplied.
- HeroServices.HeroService: `console.error(error)` is recorded only as the ghost list `consoleErrors`, one entry per failure; the error object is reduced to its message.
- RxJS schedulers, wall-clock timers and real cancellation: time is an integer millisecond stamp on each event, a timer fires at the first `Tick` or `Submit` at or after its deadline, and an unsubscribed lookup's answer is dropped when it arrives. Completion and errors of the `searchTerms` subject are not modelled.
- HeroSearch.HeroSearchComponent.Respond: the search pipeline performs `searchHeroes` through the pure `SearchHeroesCall`, not through the `HeroService` object, so its diagnostic reports are not recorded.
- Decimal.IdText: writes every integer in plain decimal. A JavaScript number is a double, so ids of magnitude 10^21 or more render in exponent form (`1e+21`), and not every integer above 2^53 is representable at all; the model covers ids as whole numbers only.
- HeroSearch.HeroSearchComponent.constructor: stands for construction, `ngOnInit` and the one `async` subscription together, so the pipeline is live from the start. A term pushed before the view subscribes, which the subject would lose, is not modelled.
- `src/app/hero.ts` is not part of this model. A hero is an integer id and a name, so an id is never `undefined` or fractional, and id text covers whole numbers only.
- URL encoding of the search term: the term is placed in the URL as given.
- The default operation name `'operation'` of `handleError`: every call site passes one. The loosely typed result (`any`) becomes an optional value of the call's own type.
- The commented-out mock-data paths of `getHeroes` and `getHero`, routing, and the view components that only bind data.

=== FILE: common.dfy ===
/** Small shared vocabulary: an optional value (JavaScript's `undefined`
    is `None`) and the last element of a sequence. */
module Common {

  datatype Option<+T> = None | Some(value: T)

  function Last<T>(s: seq<T>): T
    requires s != []
  {
    s[|s| - 1]
  }
}

=== FILE: decimal.dfy ===
/** Decimal text of an integer hero id, as a JavaScript template literal
    renders a whole number (`${id}`): optional minus sign, then the digits
    with no leading zero. A parser is the partner that shows the text
    determines the id, so two ids never share a URL or a log line. */
module Decimal {
  import opened Common

  predicate IsDigit(c: char) {
    '0' <= c <= '9'
  }

  predicate AllDigits(s: string) {
    forall i :: 0 <= i < |s| ==> IsDigit(s[i])
  }

  function DigitChar(d: nat): (c: char)
    requires d < 10
    ensures IsDigit(c) && (c as int) - ('0' as int) == d
  {
    (('0' as int) + d) as char
  }

  function DigitValue(c: char): (d: nat)
    requires IsDigit(c)
    ensures d < 10
  {
    (c as int) - ('0' as int)
  }

  /** Digits of a natural number, most significant first. */
  function NatText(n: nat): (s: string)
    ensures |s| >= 1 && AllDigits(s)
    ensures |s| > 1 ==> s[0] != '0'
    decreases n
  {
    if n < 10 then [DigitChar(n)] else NatText(n / 10) + [DigitChar(n % 10)]
  }

  /** Text of an id: `-` followed by the digits of its magnitude when negative. */
  function IdText(id: int): (s: string)
    ensures |s| >= 1 && (IsDigit(s[0]) || s[0] == '-')
    ensures s[0] == '-' <==> id < 0
    ensures var d := if id < 0 then s[1..] else s;
      && |d| >= 1 && AllDigits(d)
      && (|d| > 1 ==> d[0] != '0')
      && (id < 0 ==> d[0] != '0')
  {
    if id < 0 then "-" + NatText(-id) else NatText(id)
  }

  /** Value of a string of decimal digits, most significant first. */
  function DigitsValue(s: string): nat
    requires AllDigits(s)
    decreases |s|
  {
    if s == [] then 0 else DigitsValue(s[..|s| - 1]) * 10 + DigitValue(Last(s))
  }

  /** Reads back what IdText writes; None for anything else. */
  function ParseId(s: string): Option<int> {
    if |s| >= 2 && s[0] == '-' && AllDigits(s[1..]) then Some(0 - DigitsValue(s[1..]) as int)
    else if |s| >= 1 && AllDigits(s) then Some(DigitsValue(s))
    else None
  }

  lemma {:induction false} DigitsValueOfNatText(n: nat)
    ensures DigitsValue(NatText(n)) == n
    decreases n
  {
    var s := NatText(n);
    if n >= 10 {
      DigitsValueOfNatText(n / 10);
      assert s[..|s| - 1] == NatText(n / 10);
    }
  }

  /** Round trip: the text of an id parses back to that id. */
  lemma ParseIdText(id: int)
    ensures ParseId(IdText(id)) == Some(id)
  {
    var s := IdText(id);
    if id < 0 {
      assert s[1..] == NatText(-id);
      DigitsValueOfNatText(-id);
    } else {
      DigitsValueOfNatText(id);
    }
  }

  /** Distinct ids have distinct texts. */
  lemma IdTextInjective(a: int, b: int)
    ensures IdText(a) == IdText(b) <==> a == b
  {
    if IdText(a) == IdText(b) {
      ParseIdText(a);
      ParseIdText(b);
    }
  }
}

=== FILE: hero_search.dfy ===
/** The hero search box: every keystroke's term goes through
    debounceTime(300), then distinctUntilChanged(), then
    switchMap(searchHeroes). Time and the transport are abstracted into a
    finite trace of events with whole-millisecond time stamps:

      - Submit(t, term): search(term) called at time t;
      - Tick(t): the scheduler runs at time t (a debounce timer may fire);
      - Complete(k, outcome): the transport answers the request of lookup
        number k (lookups are numbered from 0 in the order issued).

    The pipeline is a step function on a State; the outputs are the issued
    lookups (the terms handed to searchHeroes, with the requests they sent)
    and the delivered results (what heroes$ emits). */
module HeroSearch {
  import opened Common
  import opened HeroServices
  import opened Messages

  /** debounceTime(300): the quiet time, in milliseconds, a term needs. */
  const DebounceMs: int := 300

  datatype Event =
    | Submit(time: int, term: string)
    | Tick(time: int)
    | Complete(lookup: nat, outcome: Outcome<seq<Hero>>)

  /** The term debounceTime holds and the time its timer fires. */
  datatype Pending = Pending(term: string, deadline: int)

  /** The inner searchHeroes subscription switchMap is waiting on. */
  datatype Lookup = Lookup(index: nat, term: string)

  /** One emission of heroes$: which lookup produced it, for which term. */
  datatype Delivery = Delivery(lookup: nat, term: string, heroes: seq<Hero>)

  datatype State = State(
    pending: Option<Pending>,     // debounceTime: latest term, not yet settled
    lastTerm: Option<string>,     // distinctUntilChanged: last term let through
    active: Option<Lookup>,       // switchMap: lookup whose answer is awaited
    issued: seq<string>,          // every term handed to searchHeroes, in order
    requests: seq<Request>,       // every request those calls sent, in order
    delivered: seq<Delivery>,     // every emission of heroes$, in order
    log: seq<string>)             // lines the lookups appended to the message log

  const Init: State := State(None, None, None, [], [], [], [])

  /** switchMap(searchHeroes) receives `term`: the previous inner
      subscription is dropped and a new lookup starts. A blank term sends
      nothing and yields [] at once (`of([])`); otherwise the request goes
      out and the answer is awaited. */
  function Issue(s: State, term: string): (r: State)
    ensures r.issued == s.issued + [term]
    ensures r.pending == s.pending && r.lastTerm == s.lastTerm && r.log == s.log
    ensures r.active.Some? <==> !IsBlank(term)
    ensures r.active.Some? ==> r.active.value == Lookup(|s.issued|, term)
    ensures r.requests == s.requests + if IsBlank(term) then [] else [Request(Get, "api/heroes/?name=" + term, [], None)]
    ensures r.delivered == s.delivered + if IsBlank(term) then [Delivery(|s.issued|, term, [])] else []
  {
    var k := |s.issued|;
    match SearchRequest(term)
    case None =>
      s.(active := None, issued := s.issued + [term], delivered := s.delivered + [Delivery(k, term, [])])
    case Some(request) =>
      s.(active := Some(Lookup(k, term)), issued := s.issued + [term], requests := s.requests + [request])
  }

  /** distinctUntilChanged(): a settled term equal to the last one let
      through is dropped; any other term is let through and issued. */
  function Settle(s: State, term: string): (r: State)
    ensures r.lastTerm == Some(term) && r.pending == s.pending && r.log == s.log
    ensures r.issued == s.issued + if s.lastTerm == Some(term) then [] else [term]
  {
    if s.lastTerm == Some(term) then s else Issue(s.(lastTerm := Some(term)), term)
  }

  /** The debounce timer fires if its deadline has come by time `now`. */
  function Flush(s: State, now: int): (r: State)
    ensures s.pending.Some? && now >= s.pending.value.deadline ==>
      r.pending == None && r.lastTerm == Some(s.pending.value.term) && r.log == s.log
    ensures !(s.pending.Some? && now >= s.pending.value.deadline) ==> r == s
  {
    match s.pending
    case Some(p) => if now >= p.deadline then Settle(s.(pending := None), p.term) else s
    case None => s
  }

  /** The transport answers lookup k: only the awaited lookup is passed
      through searchHeroes' tap/catchError and delivered; an answer for a
      superseded (or already answered) lookup is dropped unseen. */
  function Deliver(s: State, k: nat, outcome: Outcome<seq<Hero>>): (r: State)
    ensures r.pending == s.pending && r.lastTerm == s.lastTerm && r.issued == s.issued && r.requests == s.requests
    ensures s.active.Some? && s.active.value.index == k ==> r.active == None && |r.delivered| == |s.delivered| + 1
    ensures !(s.active.Some? && s.active.value.index == k) ==> r == s
    ensures |s.log| <= |r.log| <= |s.log| + 1 && r.log[..|s.log|] == s.log
  {
    match s.active
    case Some(l) =>
      if l.index == k then
        var c := SearchHeroesCall(l.term, outcome);
        s.(active := None, delivered := s.delivered + [Delivery(k, l.term, c.value.value)], log := s.log + c.lines)
      else s
    case None => s
  }

  function Step(s: State, e: Event): (r: State)
    ensures e.Submit? ==> r.pending == Some(Pending(e.term, e.time + DebounceMs))
    ensures !e.Complete? ==> r.log == s.log
    ensures r.issued == s.issued || (|r.issued| == |s.issued| + 1 && r.issued[..|s.issued|] == s.issued)
  {
    match e
    case Submit(t, term) => Flush(s, t).(pending := Some(Pending(term, t + DebounceMs)))
    case Tick(t) => Flush(s, t)
    case Complete(k, outcome) => Deliver(s, k, outcome)
  }

  /** The state after the events of `trace`, in order, from `s`. */
  function Run(s: State, trace: seq<Event>): (r: State)
    ensures |s.issued| <= |r.issued| <= |s.issued| + |trace|
    ensures r.issued[..|s.issued|] == s.issued
    decreases |trace|
  {
    if trace == [] then s
    else
      var m := Run(s, trace[..|trace| - 1]);
      var r := Step(m, Last(trace));
      assert r.issued[..|m.issued|] == m.issued;
      assert r.issued[..|s.issued|] == m.issued[..|s.issued|];
      r
  }

  /** The requests searchHeroes sends for the terms `terms`, in order:
      one per non-blank term. */
  function RequestsFor(terms: seq<string>): seq<Request>
    decreases |terms|
  {
    if terms == [] then []
    else RequestsFor(terms[..|terms| - 1]) + match SearchRequest(Last(terms)) case None => [] case Some(q) => [q]
  }

  /** The terms handed to search(), in order. */
  function SubmittedTerms(trace: seq<Event>): seq<string>
    decreases |trace|
  {
    if trace == [] then []
    else SubmittedTerms(trace[..|trace| - 1]) + if Last(trace).Submit? then [Last(trace).term] else []
  }

  /** What the pipeline keeps true of its state. */
  ghost predicate Valid(s: State) {
    // the distinct filter compares with the last lookup issued
    && s.lastTerm == (if s.issued == [] then None else Some(Last(s.issued)))
    // only the newest lookup can be awaited, and only if it sent a request
    && (s.active.Some? ==>
          s.issued != [] && s.active.value.index == |s.issued| - 1 &&
          s.active.value.term == Last(s.issued) && !IsBlank(s.active.value.term))
    // a request for each non-blank lookup, in issue order
    && s.requests == RequestsFor(s.issued)
    // every delivery comes from an issued lookup and carries its term
    && (forall i :: 0 <= i < |s.delivered| ==>
          s.delivered[i].lookup < |s.issued| && s.delivered[i].term == s.issued[s.delivered[i].lookup])
    // deliveries are in issue order, at most one per lookup
    && (forall i, j :: 0 <= i < j < |s.delivered| ==> s.delivered[i].lookup < s.delivered[j].lookup)
    // the awaited lookup has not delivered yet
    && (s.active.Some? ==> forall i :: 0 <= i < |s.delivered| ==> s.delivered[i].lookup < s.active.value.index)
  }

  /** The component: search() pushes into the searchTerms subject; the
      scheduler and the transport drive the rest of the pipeline. */
  class HeroSearchComponent {
    const messageService: MessageService

    /** Every term pushed into the searchTerms subject, in order. */
    var searchTerms: seq<string>

    /** The pipeline's operators' state and its outputs. */
    var pipeline: State

    /** Every event the pipeline has seen. */
    ghost var history: seq<Event>

    ghost predicate Inv()
      reads this
    {
      pipeline == Run(Init, history) && searchTerms == SubmittedTerms(history)
    }

    constructor (messageService: MessageService)
      ensures Inv() && history == [] && this.messageService == messageService
      ensures searchTerms == [] && pipeline == Init
    {
      this.messageService := messageService;
      searchTerms := [];
      pipeline := Init;
      history := [];
    }

    /** search(term) at time `now`: the term enters the stream unchanged,
      one event per call; nothing is logged. */
    method Search(now: int, term: string)
      requires Inv()
      modifies this
      ensures Inv() && history == old(history) + [Submit(now, term)]
      ensures searchTerms == old(searchTerms) + [term]
      ensures pipeline == Step(old(pipeline), Submit(now, term))
    {
      searchTerms := searchTerms + [term];
      pipeline := Step(pipeline, Submit(now, term));
      history := history + [Submit(now, term)];
      assert history[..|history| - 1] == old(history);
    }

    /** The scheduler runs at time `now`; nothing is logged. */
    method Tick(now: int)
      requires Inv()
      modifies this
      ensures Inv() && history == old(history) + [Event.Tick(now)]
      ensures searchTerms == old(searchTerms)
      ensures pipeline == Step(old(pipeline), Event.Tick(now))
    {
      pipeline := Step(pipeline, Event.Tick(now));
      history := history + [Event.Tick(now)];
      assert history[..|history| - 1] == old(history);
    }

    /** The transport answers lookup k; the line searchHeroes logs for a
      delivered answer goes to the shared message log. */
    method Respond(k: nat, outcome: Outcome<seq<Hero>>)
      requires Inv()
      modifies this, messageService
      ensures Inv() && history == old(history) + [Complete(k, outcome)]
      ensures searchTerms == old(searchTerms)
      ensures pipeline == Step(old(pipeline), Complete(k, outcome))
      ensures |pipeline.log| >= |old(pipeline.log)|
      ensures messageService.messages == old(messageService.messages) + pipeline.log[|old(pipeline.log)|..]
    {
      var before := pipeline.log;
      pipeline := Step(pipeline, Complete(k, outcome));
      history := history + [Complete(k, outcome)];
      assert history[..|history| - 1] == old(history);
      if |pipeline.log| > |before| {
        messageService.Add(pipeline.log[|before|]);
        assert pipeline.log[|before|..] == [pipeline.log[|before|]];
      } else {
        assert pipeline.log[|before|..] == [];
      }
    }
  }
}

=== FILE: hero_search_proofs.dfy ===
/** What the search pipeline guarantees, proved about HeroSearch.Step and
    HeroSearch.Run.

    The reference for the first two operators is declarative and stated on
    the event trace alone: a submitted term SETTLES when, before any newer
    submission, an event at or after its deadline (submission time + 300)
    occurs; distinctUntilChanged keeps a settled term unless it equals the
    settled term just before it. The main theorem says the lookups the
    pipeline issues are exactly those terms. */
module HeroSearchProofs {
  import opened Common
  import opened HeroServices
  import opened HeroSearch

  // ---------------------------------------------------------------------
  // Reference definitions
  // ---------------------------------------------------------------------

  /** An event at which a debounce timer with this deadline has fired. */
  ghost predicate Fires(e: Event, deadline: int) {
    (e.Submit? || e.Tick?) && e.time >= deadline
  }

  /** No submission strictly between positions i and j. */
  ghost predicate NoSubmitBetween(trace: seq<Event>, i: nat, j: nat)
    requires j <= |trace|
  {
    forall k :: i < k < j ==> !trace[k].Submit?
  }

  /** The term submitted at position i settles: its timer fires before any
      newer term is submitted. */
  ghost predicate SettlesAt(trace: seq<Event>, i: nat)
    requires i < |trace|
  {
    trace[i].Submit? &&
    exists j :: i < j < |trace| && Fires(trace[j], trace[i].time + DebounceMs) && NoSubmitBetween(trace, i, j)
  }

  /** The terms submitted at positions below n that settle, in order. */
  ghost function SettledUpTo(trace: seq<Event>, n: nat): seq<string>
    requires n <= |trace|
  {
    if n == 0 then []
    else SettledUpTo(trace, n - 1) + if SettlesAt(trace, n - 1) then [trace[n - 1].term] else []
  }

  /** What debounceTime(300) lets through, in order. */
  ghost function Settled(trace: seq<Event>): seq<string> {
    SettledUpTo(trace, |trace|)
  }

  /** distinctUntilChanged(): drop each element equal to the one before it. */
  function DistinctUntilChanged(xs: seq<string>): seq<string>
    decreases |xs|
  {
    if xs == [] then []
    else
      var init := xs[..|xs| - 1];
      DistinctUntilChanged(init) + if init != [] && Last(init) == Last(xs) then [] else [Last(xs)]
  }

  /** Position of the newest submission in the trace. */
  ghost function LastSubmit(trace: seq<Event>): (r: Option<nat>)
    ensures r.Some? ==> r.value < |trace| && trace[r.value].Submit? && NoSubmitBetween(trace, r.value, |trace|)
    ensures r.None? ==> forall k :: 0 <= k < |trace| ==> !trace[k].Submit?
    decreases |trace|
  {
    if trace == [] then None
    else if Last(trace).Submit? then Some(|trace| - 1)
    else LastSubmit(trace[..|trace| - 1])
  }

  /** The term debounceTime still holds after the trace, with its deadline. */
  ghost function PendingFor(trace: seq<Event>): Option<Pending> {
    match LastSubmit(trace)
    case None => None
    case Some(i) =>
      if SettlesAt(trace, i) then None else Some(Pending(trace[i].term, trace[i].time + DebounceMs))
  }

  /** The pipeline state agrees with the reference on the trace so far. */
  ghost predicate Agrees(trace: seq<Event>, s: State) {
    && s.pending == PendingFor(trace)
    && s.issued == DistinctUntilChanged(Settled(trace))
    && s.lastTerm == (if Settled(trace) == [] then None else Some(Last(Settled(trace))))
  }

  // ---------------------------------------------------------------------
  // distinctUntilChanged
  // ---------------------------------------------------------------------

  /** One more element is kept unless it repeats the one before it. */
  lemma DistinctSnoc(xs: seq<string>, x: string)
    ensures DistinctUntilChanged(xs + [x]) ==
            DistinctUntilChanged(xs) + if xs != [] && Last(xs) == x then [] else [x]
  {
    assert (xs + [x])[..|xs|] == xs;
  }

  /** The output never holds the same term twice in a row, it keeps the
      first element, and it ends with the input's last element. */
  lemma {:induction false} DistinctHasNoRepeats(xs: seq<string>)
    ensures forall i :: 0 < i < |DistinctUntilChanged(xs)| ==>
              DistinctUntilChanged(xs)[i - 1] != DistinctUntilChanged(xs)[i]
    ensures xs != [] ==>
      (DistinctUntilChanged(xs) != [] && DistinctUntilChanged(xs)[0] == xs[0] &&
       Last(DistinctUntilChanged(xs)) == Last(xs))
    decreases |xs|
  {
    if xs != [] {
      var init := xs[..|xs| - 1];
      DistinctHasNoRepeats(init);
      assert init != [] ==> init[0] == xs[0];
    }
  }

  // ---------------------------------------------------------------------
  // The pipeline's own invariant
  // ---------------------------------------------------------------------

  lemma RequestsForSnoc(terms: seq<string>, term: string)
    ensures RequestsFor(terms + [term]) ==
            RequestsFor(terms) + match SearchRequest(term) case None => [] case Some(q) => [q]
  {
    assert (terms + [term])[..|terms|] == terms;
  }
  /** Every request of the lookups is a search GET without headers or
      body, and there is at most one per lookup. */
  lemma {:induction false} RequestsForAreSearches(terms: seq<string>)
    ensures |RequestsFor(terms)| <= |terms|
    ensures forall i :: 0 <= i < |RequestsFor(terms)| ==>
      RequestsFor(terms)[i].verb == Get && RequestsFor(terms)[i].headers == [] && RequestsFor(terms)[i].body == None
    decreases |terms|
  {
    if terms != [] {
      var init := terms[..|terms| - 1];
      RequestsForAreSearches(init);
      var rest, r := RequestsFor(init), RequestsFor(terms);
      forall i | |rest| <= i < |r|
        ensures r[i].verb == Get && r[i].headers == [] && r[i].body == None
      {
        assert r[i] == SearchRequest(Last(terms)).value;
      }
    }
  }

  /** When no term is blank, every lookup sends exactly one request. */
  lemma {:induction false} NonBlankTermsEachSendOne(terms: seq<string>)
    requires forall i :: 0 <= i < |terms| ==> !IsBlank(terms[i])
    ensures |RequestsFor(terms)| == |terms|
    decreases |terms|
  {
    if terms != [] {
      var init := terms[..|terms| - 1];
      assert forall i :: 0 <= i < |init| ==> init[i] == terms[i];
      NonBlankTermsEachSendOne(init);
      assert !IsBlank(terms[|terms| - 1]);
    }
  }



  /** Appending one delivery for lookup k keeps the delivery part of the
      invariant when k follows every earlier delivery and names an issued
      lookup with its term. */
  lemma DeliveriesExtend(issued: seq<string>, delivered: seq<Delivery>, d: Delivery)
    requires forall i :: 0 <= i < |delivered| ==>
               delivered[i].lookup < |issued| && delivered[i].term == issued[delivered[i].lookup]
    requires forall i, j :: 0 <= i < j < |delivered| ==> delivered[i].lookup < delivered[j].lookup
    requires forall i :: 0 <= i < |delivered| ==> delivered[i].lookup < d.lookup
    requires d.lookup < |issued| && d.term == issued[d.lookup]
    ensures var ds := delivered + [d];
      && (forall i :: 0 <= i < |ds| ==> ds[i].lookup < |issued| && ds[i].term == issued[ds[i].lookup])
      && (forall i, j :: 0 <= i < j < |ds| ==> ds[i].lookup < ds[j].lookup)
  {
    var ds := delivered + [d];
    forall i | 0 <= i < |ds|
      ensures ds[i].lookup < |issued| && ds[i].term == issued[ds[i].lookup]
    {
      if i < |delivered| {
        assert ds[i] == delivered[i];
      }
    }
    forall i, j | 0 <= i < j < |ds|
      ensures ds[i].lookup < ds[j].lookup
    {
      assert ds[i] == delivered[i];
    }
  }

  /** Issued lookups only grow, so earlier deliveries still name issued
      lookups with their terms. */
  lemma DeliveriesStayIssued(issued: seq<string>, delivered: seq<Delivery>, term: string)
    requires forall i :: 0 <= i < |delivered| ==>
               delivered[i].lookup < |issued| && delivered[i].term == issued[delivered[i].lookup]
    ensures forall i :: 0 <= i < |delivered| ==>
      delivered[i].lookup < |issued + [term]| && delivered[i].term == (issued + [term])[delivered[i].lookup]
  {
  }

  /** Issuing a blank term keeps the invariant: it delivers [] at once. */
  lemma IssueBlankKeepsValid(s: State, term: string)
    requires Valid(s) && IsBlank(term)
    ensures Valid(Issue(s.(lastTerm := Some(term)), term))
  {
    var k := |s.issued|;
    var issued := s.issued + [term];
    var d := Delivery(k, term, []);
    RequestsForSnoc(s.issued, term);
    DeliveriesStayIssued(s.issued, s.delivered, term);
    DeliveriesExtend(issued, s.delivered, d);
    assert Issue(s.(lastTerm := Some(term)), term) ==
      s.(lastTerm := Some(term), active := None, issued := issued, delivered := s.delivered + [d]);
  }

  /** Issuing a non-blank term keeps the invariant: its request is sent
      and it becomes the awaited lookup. */
  lemma IssueRequestKeepsValid(s: State, term: string)
    requires Valid(s) && !IsBlank(term)
    ensures Valid(Issue(s.(lastTerm := Some(term)), term))
  {
    var k := |s.issued|;
    var issued := s.issued + [term];
    RequestsForSnoc(s.issued, term);
    DeliveriesStayIssued(s.issued, s.delivered, term);
    assert Issue(s.(lastTerm := Some(term)), term) ==
      s.(lastTerm := Some(term), active := Some(Lookup(k, term)), issued := issued,
         requests := s.requests + [SearchRequest(term).value]);
  }

  lemma SettleKeepsValid(s: State, term: string)
    requires Valid(s)
    ensures Valid(Settle(s, term))
  {
    if s.lastTerm != Some(term) {
      if IsBlank(term) {
        IssueBlankKeepsValid(s, term);
      } else {
        IssueRequestKeepsValid(s, term);
      }
    }
  }

  lemma FlushKeepsValid(s: State, now: int)
    requires Valid(s)
    ensures Valid(Flush(s, now))
  {
    if s.pending.Some? && now >= s.pending.value.deadline {
      SettleKeepsValid(s.(pending := None), s.pending.value.term);
      assert Flush(s, now) == Settle(s.(pending := None), s.pending.value.term);
    } else {
      assert Flush(s, now) == s;
    }
  }

  lemma DeliverKeepsValid(s: State, k: nat, outcome: Outcome<seq<Hero>>)
    requires Valid(s)
    ensures Valid(Deliver(s, k, outcome))
  {
    if s.active.Some? && s.active.value.index == k {
      var l := s.active.value;
      var d := Delivery(k, l.term, SearchHeroesCall(l.term, outcome).value.value);
      assert Deliver(s, k, outcome).delivered == s.delivered + [d];
      DeliveriesExtend(s.issued, s.delivered, d);
    } else {
      assert Deliver(s, k, outcome) == s;
    }
  }

  /** Every step keeps the pipeline's invariant. */
  lemma StepKeepsValid(s: State, e: Event)
    requires Valid(s)
    ensures Valid(Step(s, e))
  {
    match e
    case Submit(t, _) => FlushKeepsValid(s, t);
    case Tick(t) => FlushKeepsValid(s, t);
    case Complete(k, outcome) => DeliverKeepsValid(s, k, outcome);
  }

  lemma {:induction false} RunKeepsValid(s: State, trace: seq<Event>)
    requires Valid(s)
    ensures Valid(Run(s, trace))
    decreases |trace|
  {
    if trace != [] {
      RunKeepsValid(s, trace[..|trace| - 1]);
      StepKeepsValid(Run(s, trace[..|trace| - 1]), Last(trace));
    }
  }

  /** Delivered results come in issue order, at most one per lookup, each
      from an issued lookup and for that lookup's term. */
  lemma DeliveredFollowIssueOrder(trace: seq<Event>)
    ensures var s := Run(Init, trace);
      && (forall i, j :: 0 <= i < j < |s.delivered| ==> s.delivered[i].lookup < s.delivered[j].lookup)
      && (forall i :: 0 <= i < |s.delivered| ==>
            s.delivered[i].lookup < |s.issued| && s.delivered[i].term == s.issued[s.delivered[i].lookup])
  {
    RunKeepsValid(Init, trace);
  }

  // ---------------------------------------------------------------------
  // switchMap: only the newest lookup is ever delivered
  // ---------------------------------------------------------------------

  /** An answer is delivered exactly when it is for the newest lookup and
      that lookup is still awaited; then heroes$ emits what searchHeroes
      makes of it and its one log line is appended. Any other answer
      changes nothing at all. */
  lemma SwitchLatest(s: State, k: nat, outcome: Outcome<seq<Hero>>)
    requires Valid(s)
    ensures s.active.Some? && k == |s.issued| - 1 ==>
      var term := Last(s.issued);
      var c := SearchHeroesCall(term, outcome);
      && c.value.Some? && |c.lines| == 1
      && Step(s, Complete(k, outcome)) ==
         s.(active := None, delivered := s.delivered + [Delivery(k, term, c.value.value)], log := s.log + c.lines)
    ensures !(s.active.Some? && k == |s.issued| - 1) ==> Step(s, Complete(k, outcome)) == s
  {
  }

  /** Whatever the event, a delivery it causes is of the lookup issued
      last: results of superseded lookups never reach heroes$. */
  lemma DeliveryIsOfNewestLookup(s: State, e: Event)
    requires Valid(s)
    ensures var s' := Step(s, e);
      || s'.delivered == s.delivered
      || (&& s'.delivered[..|s.delivered|] == s.delivered
          && |s'.delivered| == |s.delivered| + 1
          && s'.issued != []
          && Last(s'.delivered).lookup == |s'.issued| - 1
          && Last(s'.delivered).term == Last(s'.issued))
  {
    match e
    case Complete(k, outcome) =>
      SwitchLatest(s, k, outcome);
    case Submit(t, _) =>
      FlushDeliversNewest(s, t);
    case Tick(t) =>
      FlushDeliversNewest(s, t);
  }

  /** A firing timer delivers at most the immediate [] of a blank term it
      has just issued. */
  lemma FlushDeliversNewest(s: State, now: int)
    ensures var s' := Flush(s, now);
      || s'.delivered == s.delivered
      || (&& s'.issued == s.issued + [Last(s'.issued)]
          && s'.delivered == s.delivered + [Delivery(|s.issued|, Last(s'.issued), [])]
          && IsBlank(Last(s'.issued)))
  {
  }

  /** After any trace, a late answer for a lookup that a newer lookup has
      superseded changes nothing: it is neither delivered nor logged. */
  lemma SupersededAnswerIsDropped(trace: seq<Event>, k: nat, outcome: Outcome<seq<Hero>>)
    requires k + 1 < |Run(Init, trace).issued|
    ensures Run(Init, trace + [Complete(k, outcome)]) == Run(Init, trace)
  {
    assert (trace + [Complete(k, outcome)])[..|trace|] == trace;
    RunKeepsValid(Init, trace);
    SwitchLatest(Run(Init, trace), k, outcome);
  }

  /** Only answers write to the message log; submissions and timers never do. */
  lemma OnlyAnswersLog(s: State, e: Event)
    requires !e.Complete?
    ensures Step(s, e).log == s.log
  {
  }

  ghost predicate IsPrefix<T>(a: seq<T>, b: seq<T>) {
    |a| <= |b| && b[..|a|] == a
  }

  lemma StepOnlyAppends(s: State, e: Event)
    ensures var s' := Step(s, e);
      IsPrefix(s.issued, s'.issued) && IsPrefix(s.requests, s'.requests) &&
      IsPrefix(s.delivered, s'.delivered) && IsPrefix(s.log, s'.log)
  {
    var s' := Step(s, e);
    match e
    case Complete(k, outcome) =>
      DeliverOnlyAppends(s, k, outcome);
    case Submit(t, _) =>
      FlushOnlyAppends(s, t);
    case Tick(t) =>
      FlushOnlyAppends(s, t);
  }

  lemma DeliverOnlyAppends(s: State, k: nat, outcome: Outcome<seq<Hero>>)
    ensures var s' := Deliver(s, k, outcome);
      s'.issued == s.issued && s'.requests == s.requests &&
      IsPrefix(s.delivered, s'.delivered) && IsPrefix(s.log, s'.log)
  {
    var s' := Deliver(s, k, outcome);
    if s.active.Some? && s.active.value.index == k {
      var c := SearchHeroesCall(s.active.value.term, outcome);
      assert s'.delivered == s.delivered + [Delivery(k, s.active.value.term, c.value.value)];
      assert s'.log == s.log + c.lines;
      PrefixOfAppend(s.delivered, s'.delivered);
      PrefixOfAppend(s.log, s'.log);
    } else {
      assert s' == s;
    }
  }

  lemma FlushOnlyAppends(s: State, now: int)
    ensures var s' := Flush(s, now);
      IsPrefix(s.issued, s'.issued) && IsPrefix(s.requests, s'.requests) &&
      IsPrefix(s.delivered, s'.delivered) && s'.log == s.log
  {
    var s' := Flush(s, now);
    PrefixOfAppend(s.issued, s'.issued);
    PrefixOfAppend(s.requests, s'.requests);
    PrefixOfAppend(s.delivered, s'.delivered);
  }

  lemma PrefixOfAppend<T>(a: seq<T>, b: seq<T>)
    requires b == a || (|b| >= |a| && b == a + b[|a|..])
    ensures IsPrefix(a, b)
  {
    if b != a {
      assert b[..|a|] == (a + b[|a|..])[..|a|];
    }
  }

  /** Superseding does not un-issue: issued lookups, sent requests,
      delivered results and log lines are only ever appended to. */
  lemma {:induction false} OutputsOnlyGrow(s: State, trace: seq<Event>)
    ensures var s' := Run(s, trace);
      IsPrefix(s.issued, s'.issued) && IsPrefix(s.requests, s'.requests) &&
      IsPrefix(s.delivered, s'.delivered) && IsPrefix(s.log, s'.log)
    decreases |trace|
  {
    if trace != [] {
      OutputsOnlyGrow(s, trace[..|trace| - 1]);
      var m := Run(s, trace[..|trace| - 1]);
      var s' := Step(m, Last(trace));
      StepOnlyAppends(m, Last(trace));
      assert s'.issued[..|s.issued|] == m.issued[..|s.issued|];
      assert s'.requests[..|s.requests|] == m.requests[..|s.requests|];
      assert s'.delivered[..|s.delivered|] == m.delivered[..|s.delivered|];
      assert s'.log[..|s.log|] == m.log[..|s.log|];
    }
  }

  // ---------------------------------------------------------------------
  // debounceTime + distinctUntilChanged against the reference
  // ---------------------------------------------------------------------

  lemma SettlesAtExtend(trace: seq<Event>, e: Event, i: nat)
    requires i < |trace|
    ensures SettlesAt(trace + [e], i) <==>
      SettlesAt(trace, i) ||
      (trace[i].Submit? && Fires(e, trace[i].time + DebounceMs) && NoSubmitBetween(trace, i, |trace|))
  {
    var tr2 := trace + [e];
    assert forall k :: 0 <= k < |trace| ==> tr2[k] == trace[k];
    if SettlesAt(tr2, i) && !SettlesAt(trace, i) {
      var j :| i < j < |tr2| && Fires(tr2[j], tr2[i].time + DebounceMs) && NoSubmitBetween(tr2, i, j);
      if j < |trace| {
        assert NoSubmitBetween(trace, i, j);
        assert false;
      }
    }
    if SettlesAt(trace, i) {
      var j :| i < j < |trace| && Fires(trace[j], trace[i].time + DebounceMs) && NoSubmitBetween(trace, i, j);
      assert NoSubmitBetween(tr2, i, j);
    }
    if trace[i].Submit? && Fires(e, trace[i].time + DebounceMs) && NoSubmitBetween(trace, i, |trace|) {
      assert NoSubmitBetween(tr2, i, |trace|);
    }
  }

  lemma {:induction false} SettledUpToAgree(tr1: seq<Event>, tr2: seq<Event>, n: nat)
    requires n <= |tr1| && n <= |tr2|
    requires forall i :: 0 <= i < n ==> tr1[i] == tr2[i] && SettlesAt(tr1, i) == SettlesAt(tr2, i)
    ensures SettledUpTo(tr1, n) == SettledUpTo(tr2, n)
  {
    if n > 0 {
      SettledUpToAgree(tr1, tr2, n - 1);
    }
  }

  lemma {:induction false} SettledUpToSkip(trace: seq<Event>, a: nat, b: nat)
    requires a <= b <= |trace|
    requires forall i :: a <= i < b ==> !SettlesAt(trace, i)
    ensures SettledUpTo(trace, b) == SettledUpTo(trace, a)
    decreases b
  {
    if a < b {
      SettledUpToSkip(trace, a, b - 1);
    }
  }

  /** The timer of the pending term fires at event e. */
  ghost predicate FiresNow(s: State, e: Event) {
    s.pending.Some? && Fires(e, s.pending.value.deadline)
  }

  /** Appending e makes exactly one more submission settle, the pending
      one, and only when its timer fires at e. */
  lemma SettlesAtStep(trace: seq<Event>, s: State, e: Event, i: nat)
    requires Agrees(trace, s) && i < |trace|
    ensures SettlesAt(trace + [e], i) <==> SettlesAt(trace, i) || (FiresNow(s, e) && LastSubmit(trace) == Some(i))
  {
    SettlesAtExtend(trace, e, i);
    var last := LastSubmit(trace);
    if trace[i].Submit? && NoSubmitBetween(trace, i, |trace|) {
      assert last == Some(i);
    }
  }

  /** The settled terms after one more event: one more exactly when the
      pending term's timer fires. */
  lemma SettledStep(trace: seq<Event>, s: State, e: Event)
    requires Agrees(trace, s)
    ensures Settled(trace + [e]) == Settled(trace) + if FiresNow(s, e) then [s.pending.value.term] else []
  {
    var tr2 := trace + [e];
    var n := |trace|;
    assert !SettlesAt(tr2, n);
    forall i | 0 <= i < n
      ensures SettlesAt(tr2, i) <==> SettlesAt(trace, i) || (FiresNow(s, e) && LastSubmit(trace) == Some(i))
    {
      SettlesAtStep(trace, s, e, i);
    }
    if !FiresNow(s, e) {
      SettledUpToAgree(trace, tr2, n);
    } else {
      var i :| LastSubmit(trace) == Some(i);
      assert !SettlesAt(trace, i);
      SettledUpToAgree(trace, tr2, i);
      SettledUpToSkip(tr2, i + 1, n + 1);
      SettledUpToSkip(trace, i, n);
    }
  }

  lemma PendingStep(trace: seq<Event>, s: State, e: Event)
    requires Agrees(trace, s)
    ensures PendingFor(trace + [e]) ==
      if e.Submit? then Some(Pending(e.term, e.time + DebounceMs))
      else if FiresNow(s, e) then None
      else s.pending
  {
    var tr2 := trace + [e];
    assert tr2[..|trace|] == trace;
    if !e.Submit? {
      assert LastSubmit(tr2) == LastSubmit(trace);
      match LastSubmit(trace)
      case None =>
      case Some(i) =>
        SettlesAtStep(trace, s, e, i);
    }
  }

  /** What one event does to the debounce and distinct state. */
  lemma StepSettles(s: State, e: Event)
    ensures var s' := Step(s, e);
      && s'.pending == (if e.Submit? then Some(Pending(e.term, e.time + DebounceMs))
                        else if FiresNow(s, e) then None else s.pending)
      && s'.lastTerm == (if FiresNow(s, e) then Some(s.pending.value.term) else s.lastTerm)
      && s'.issued == s.issued +
           if FiresNow(s, e) && s.lastTerm != Some(s.pending.value.term) then [s.pending.value.term] else []
  {
  }

  lemma AgreesStep(trace: seq<Event>, s: State, e: Event)
    requires Agrees(trace, s)
    ensures Agrees(trace + [e], Step(s, e))
  {
    SettledStep(trace, s, e);
    PendingStep(trace, s, e);
    StepSettles(s, e);
    var s' := Step(s, e);
    if FiresNow(s, e) {
      var term := s.pending.value.term;
      DistinctSnoc(Settled(trace), term);
      assert Settled(trace + [e]) == Settled(trace) + [term];
      assert s'.lastTerm == Some(term);
      assert s'.issued == DistinctUntilChanged(Settled(trace + [e]));
    } else {
      assert Settled(trace + [e]) == Settled(trace);
      assert s'.issued == DistinctUntilChanged(Settled(trace + [e]));
      assert s'.lastTerm == s.lastTerm;
    }
    assert s'.pending == PendingFor(trace + [e]);
  }

  lemma {:induction false} RunAgrees(trace: seq<Event>)
    ensures Agrees(trace, Run(Init, trace))
    decreases |trace|
  {
    if trace != [] {
      var init := trace[..|trace| - 1];
      RunAgrees(init);
      AgreesStep(init, Run(Init, init), Last(trace));
      assert init + [Last(trace)] == trace;
    }
  }

  /** The lookups issued are exactly the settled terms with consecutive
      repeats dropped, one per such term and no others, in order; and a
      request is sent for each of them that is not blank. */
  lemma IssuedAreDistinctSettledTerms(trace: seq<Event>)
    ensures Run(Init, trace).issued == DistinctUntilChanged(Settled(trace))
    ensures Run(Init, trace).requests == RequestsFor(DistinctUntilChanged(Settled(trace)))
  {
    RunAgrees(trace);
    RunKeepsValid(Init, trace);
  }

  /** No two lookups issued one after the other are for the same term. */
  lemma NoTermIssuedTwiceInARow(trace: seq<Event>)
    ensures var issued := Run(Init, trace).issued;
      forall i :: 0 < i < |issued| ==> issued[i - 1] != issued[i]
  {
    IssuedAreDistinctSettledTerms(trace);
    DistinctHasNoRepeats(Settled(trace));
  }

  // ---------------------------------------------------------------------
  // Bursts
  // ---------------------------------------------------------------------

  /** A burst: submissions only, each less than 300 ms after the one
      before it. */
  ghost predicate IsBurst(burst: seq<Event>) {
    && burst != []
    && (forall i :: 0 <= i < |burst| ==> burst[i].Submit?)
    && (forall i :: 0 < i < |burst| ==> SoonAfter(burst, i))
  }

  /** The submission at position i comes less than 300 ms after the one
      before it. */
  ghost predicate SoonAfter(burst: seq<Event>, i: nat)
    requires 0 < i < |burst|
  {
    !burst[i].Complete? && !burst[i - 1].Complete? && burst[i].time < burst[i - 1].time + DebounceMs
  }

  lemma RunSnoc(s: State, trace: seq<Event>, e: Event)
    ensures Run(s, trace + [e]) == Step(Run(s, trace), e)
  {
    assert (trace + [e])[..|trace|] == trace;
  }

  /** After whatever came before, a burst followed by a quiet 300 ms
      contributes exactly one settled term, its last: no other submission
      of the burst settles, and the last one does. */
  lemma BurstSettlesOnlyLast(pre: seq<Event>, burst: seq<Event>, t: int)
    requires IsBurst(burst) && t >= Last(burst).time + DebounceMs
    ensures var tr := pre + burst + [Event.Tick(t)];
      && (forall i :: |pre| <= i < |pre| + |burst| - 1 ==> !SettlesAt(tr, i))
      && SettlesAt(tr, |pre| + |burst| - 1)
      && Settled(tr) == SettledUpTo(tr, |pre|) + [Last(burst).term]
  {
    var tr := pre + burst + [Event.Tick(t)];
    BurstOthersDoNotSettle(pre, burst, t);
    BurstLastSettles(pre, burst, t);
    SettledOnlyAt(tr, |pre|, |pre| + |burst| - 1);
  }

  /** Within a burst, every submission but the last is replaced before its
      timer fires. */
  lemma BurstOthersDoNotSettle(pre: seq<Event>, burst: seq<Event>, t: int)
    requires IsBurst(burst)
    ensures var tr := pre + burst + [Event.Tick(t)];
      forall i :: |pre| <= i < |pre| + |burst| - 1 ==> !SettlesAt(tr, i)
  {
    var tr := pre + burst + [Event.Tick(t)];
    var n, m := |pre|, |burst|;
    forall i | n <= i < n + m - 1
      ensures !SettlesAt(tr, i)
    {
      assert tr[i] == burst[i - n] && tr[i + 1] == burst[i + 1 - n];
      assert SoonAfter(burst, i + 1 - n);
    }
  }

  /** The last submission of a burst settles at the quiet tick after it;
      the tick itself is not a submission. */
  lemma BurstLastSettles(pre: seq<Event>, burst: seq<Event>, t: int)
    requires IsBurst(burst) && t >= Last(burst).time + DebounceMs
    ensures var tr := pre + burst + [Event.Tick(t)];
      && SettlesAt(tr, |pre| + |burst| - 1) && !SettlesAt(tr, |pre| + |burst|)
      && tr[|pre| + |burst| - 1] == Last(burst)
  {
    var tr := pre + burst + [Event.Tick(t)];
    var n, m := |pre|, |burst|;
    assert tr[n + m - 1] == Last(burst) && tr[n + m] == Event.Tick(t);
    assert Fires(tr[n + m], tr[n + m - 1].time + DebounceMs) && NoSubmitBetween(tr, n + m - 1, n + m);
  }

  /** When, from position a on, only the submission at p settles, the
      settled terms are those before a followed by that one. */
  lemma SettledOnlyAt(trace: seq<Event>, a: nat, p: nat)
    requires a <= p < |trace| && SettlesAt(trace, p)
    requires forall i :: a <= i < |trace| && i != p ==> !SettlesAt(trace, i)
    ensures Settled(trace) == SettledUpTo(trace, a) + [trace[p].term]
  {
    SettledUpToSkip(trace, p + 1, |trace|);
    SettledUpToSkip(trace, a, p);
  }

  /** Running two traces one after the other is running their concatenation. */
  lemma {:induction false} RunAppend(s: State, a: seq<Event>, b: seq<Event>)
    ensures Run(s, a + b) == Run(Run(s, a), b)
    decreases |b|
  {
    if b == [] {
      assert a + b == a;
    } else {
      var b', e := b[..|b| - 1], Last(b);
      assert b == b' + [e];
      assert a + b == (a + b') + [e];
      RunAppend(s, a, b');
      RunSnoc(s, a + b', e);
      RunSnoc(Run(s, a), b', e);
    }
  }

  /** While a burst goes on, nothing is issued after its first submission:
      each newer term only replaces the pending one. */
  lemma {:induction false} BurstHoldsLast(s: State, burst: seq<Event>, m: nat)
    requires IsBurst(burst) && 1 <= m <= |burst|
    ensures var r, first := Run(s, burst[..m]), Step(s, burst[0]);
      && r.issued == first.issued && r.lastTerm == first.lastTerm
      && r.pending == Some(Pending(burst[m - 1].term, burst[m - 1].time + DebounceMs))
    decreases m
  {
    var x, e := burst[..m - 1], burst[m - 1];
    assert burst[..m] == x + [e];
    RunSnoc(s, x, e);
    if m > 1 {
      BurstHoldsLast(s, burst, m - 1);
      var prev := Run(s, x);
      assert SoonAfter(burst, m - 1);
      assert Flush(prev, e.time) == prev;
    } else {
      assert x == [];
    }
  }

  /** After whatever came before, a burst followed by a quiet 300 ms adds
      at most one lookup to those issued by its first submission, for its
      last term, and that term is then the newest lookup. */
  lemma BurstIssuesOneLookup(pre: seq<Event>, burst: seq<Event>, t: int)
    requires IsBurst(burst) && t >= Last(burst).time + DebounceMs
    ensures var first, after := Run(Init, pre + burst[..1]), Run(Init, pre + burst + [Event.Tick(t)]);
      && (after.issued == first.issued || after.issued == first.issued + [Last(burst).term])
      && after.issued != [] && Last(after.issued) == Last(burst).term
  {
    var s0 := Run(Init, pre);
    BurstHoldsLast(s0, burst, 1);
    BurstHoldsLast(s0, burst, |burst|);
    assert burst[..|burst|] == burst;
    RunAppend(Init, pre, burst[..1]);
    RunAppend(Init, pre, burst);
    var s := Run(Init, pre + burst);
    RunSnoc(Init, pre + burst, Event.Tick(t));
    RunRemembersLastLookup(pre + burst);
    QuietTickIssuesPending(s, t);
  }

  /** A tick at or after the pending deadline issues the pending term unless
      the distinct filter remembers it; either way it is the newest lookup. */
  lemma QuietTickIssuesPending(s: State, t: int)
    requires s.pending.Some? && t >= s.pending.value.deadline
    requires s.lastTerm == (if s.issued == [] then None else Some(Last(s.issued)))
    ensures var r, term := Step(s, Event.Tick(t)), s.pending.value.term;
      && (r.issued == s.issued || r.issued == s.issued + [term])
      && r.issued != [] && Last(r.issued) == term
  {
    var term := s.pending.value.term;
    var r := Step(s, Event.Tick(t));
    assert r == Settle(s.(pending := None), term);
    if s.lastTerm == Some(term) {
      assert r.issued == s.issued;
    } else {
      assert r.issued == s.issued + [term];
    }
  }

  /** In every reachable state the distinct filter's memory is the newest
      issued lookup. */
  lemma RunRemembersLastLookup(trace: seq<Event>)
    ensures var s := Run(Init, trace);
      s.lastTerm == (if s.issued == [] then None else Some(Last(s.issued)))
  {
    RunKeepsValid(Init, trace);
  }

  /** The one request a lookup for "bob" sends. */
  lemma BobRequest()
    ensures RequestsFor(["bob"]) == [Request(Get, "api/heroes/?name=bob", [], None)]
  {
    assert TrimStart("bob") == "bob";
    assert TrimEnd("bob") == "bob";
    RequestsForSnoc([], "bob");
    assert [] + ["bob"] == ["bob"];
    assert "api/heroes/?name=" + "bob" == "api/heroes/?name=bob";
  }

  /** Typing "b", "bo", "bob" within 50 ms, then pausing: one request, for "bob". */
  lemma TypingBobSendsOneRequest(trace: seq<Event>)
    requires trace == [Submit(0, "b"), Submit(20, "bo"), Submit(50, "bob"), Event.Tick(350)]
    ensures Run(Init, trace).issued == ["bob"]
    ensures Run(Init, trace).requests == [Request(Get, "api/heroes/?name=bob", [], None)]
  {
    var burst := trace[..3];
    assert trace == [] + burst + [Event.Tick(350)];
    assert SoonAfter(burst, 1) && SoonAfter(burst, 2);
    BurstIssuesOneLookup([], burst, 350);
    RunSnoc(Init, [], burst[0]);
    assert [] + burst[..1] == [] + [burst[0]];
    RunKeepsValid(Init, trace);
    BobRequest();
  }
}

=== FILE: hero_service.dfy ===
/** The hero data-access service. Each call builds one request for the
    heroes web API, takes the transport's outcome for it, passes a
    successful value through unchanged with one `HeroService: ` log line,
    and turns a failure into a fallback value plus one
    `HeroService: <operation> failed: <message>` line, so that no error
    ever reaches the caller.

    The transport is a parameter: each call receives the `Outcome` the
    server produced for its request. The pure functions `...Call` state
    what one call does; the class `HeroService` performs it on a shared
    MessageService. */
module HeroServices {
  import opened Common
  import opened Decimal
  import opened Messages

  datatype Hero = Hero(id: int, name: string)

  /** What the transport produced for one request. */
  datatype Outcome<+T> = Ok(value: T) | Err(message: string)

  datatype Verb = Get | Post | Put | Delete

  datatype Header = Header(name: string, value: string)

  /** The shape of one HTTP request: verb, URL, headers and JSON body. */
  datatype Request = Request(verb: Verb, url: string, headers: seq<Header>, body: Option<Hero>)

  /** The argument of deleteHero: a bare id or a whole hero. */
  datatype HeroOrId = ById(id: int) | ByHero(hero: Hero)

  /** The effect of one service call: the request sent (None when the call
      sends none), the value the caller receives (None for `undefined`),
      and the lines appended to the message log. */
  datatype Call<+T> = Call(request: Option<Request>, value: Option<T>, lines: seq<string>)

  /** URL of the heroes web API. */
  const HeroesUrl: string := "api/heroes"

  /** The headers the web API expects on save requests. */
  const JsonHeaders: seq<Header> := [Header("Content-Type", "application/json")]

  const LogPrefix: string := "HeroService: "

  /** The line `log(message)` hands to the MessageService. */
  function LogLine(message: string): (line: string)
    ensures |line| == |LogPrefix| + |message| && line[..|LogPrefix|] == LogPrefix
    ensures line[|LogPrefix|..] == message
  {
    LogPrefix + message
  }

  /** URL of one hero: the API URL, a slash and the id. */
  function HeroUrl(id: int): (url: string)
    ensures url == "api/heroes/" + IdText(id)
  {
    assert HeroesUrl + "/" == "api/heroes/";
    HeroesUrl + "/" + IdText(id)
  }

  /** URL of a name search; the term goes in as given, untrimmed. */
  function SearchUrl(term: string): (url: string)
    ensures url == "api/heroes/?name=" + term
  {
    assert HeroesUrl + "/?name=" == "api/heroes/?name=";
    HeroesUrl + "/?name=" + term
  }

  function IdOf(target: HeroOrId): (id: int)
    ensures target.ById? ==> id == target.id
    ensures target.ByHero? ==> id == target.hero.id
  {
    match target
    case ById(id) => id
    case ByHero(hero) => hero.id
  }

  /** JavaScript's String.prototype.trim removes these: the white-space
      characters and the line terminators. */
  predicate IsJsWhitespace(c: char) {
    c == '\t' || c == '\n' || c == '\U{000B}' || c == '\U{000C}' || c == '\r' ||
    c == ' ' || c == '\U{00A0}' || c == '\U{1680}' || ('\U{2000}' <= c <= '\U{200A}') ||
    c == '\U{2028}' || c == '\U{2029}' || c == '\U{202F}' || c == '\U{205F}' ||
    c == '\U{3000}' || c == '\U{FEFF}'
  }

  /** `s` without its leading white space. */
  function TrimStart(s: string): (r: string)
    ensures |r| <= |s| && r == s[|s| - |r|..]
    ensures forall i :: 0 <= i < |s| - |r| ==> IsJsWhitespace(s[i])
    ensures r != [] ==> !IsJsWhitespace(r[0])
    decreases |s|
  {
    if s != [] && IsJsWhitespace(s[0]) then TrimStart(s[1..]) else s
  }

  /** `s` without its trailing white space. */
  function TrimEnd(s: string): (r: string)
    ensures |r| <= |s| && r == s[..|r|]
    ensures forall i :: |r| <= i < |s| ==> IsJsWhitespace(s[i])
    ensures r != [] ==> !IsJsWhitespace(Last(r))
    decreases |s|
  {
    if s != [] && IsJsWhitespace(Last(s)) then TrimEnd(s[..|s| - 1]) else s
  }

  /** `r` occurs in `s` at offset `a`, and everything before and after it
      in `s` is white space. */
  predicate PaddedBy(s: string, a: nat, r: string) {
    && a + |r| <= |s| && s[a..a + |r|] == r
    && (forall i :: 0 <= i < a ==> IsJsWhitespace(s[i]))
    && (forall i :: a + |r| <= i < |s| ==> IsJsWhitespace(s[i]))
  }

  /** `s.trim()`: `s` with white space removed from both ends. */
  function Trim(s: string): (r: string)
    ensures PaddedBy(s, |s| - |TrimStart(s)|, r)
    ensures r != [] ==> !IsJsWhitespace(r[0]) && !IsJsWhitespace(Last(r))
  {
    TrimBothEnds(s);
    TrimEnd(TrimStart(s))
  }

  lemma TrimBothEnds(s: string)
    ensures PaddedBy(s, |s| - |TrimStart(s)|, TrimEnd(TrimStart(s)))
  {
    var head := TrimStart(s);
    var r := TrimEnd(head);
    var a := |s| - |head|;
    PaddedInSuffix(s, a, head, r);
  }

  /** What is cut from both ends of a suffix `head` of `s` at offset `a` is
      cut from `s` around offset `a`. */
  lemma PaddedInSuffix(s: string, a: nat, head: string, r: string)
    requires a <= |s| && head == s[a..] && |r| <= |head| && r == head[..|r|]
    requires forall i :: 0 <= i < a ==> IsJsWhitespace(s[i])
    requires forall i :: |r| <= i < |head| ==> IsJsWhitespace(head[i])
    ensures PaddedBy(s, a, r)
  {
    assert s[a..a + |r|] == r;
    forall i | a + |r| <= i < |s|
      ensures IsJsWhitespace(s[i])
    {
      assert s[i] == head[i - a];
    }
  }

  /** `!term.trim()`: the trimmed term is the empty string. */
  predicate IsBlank(term: string) {
    Trim(term) == ""
  }

  /** A term is blank exactly when every character in it is white space. */
  lemma BlankIffAllWhitespace(term: string)
    ensures IsBlank(term) <==> forall i :: 0 <= i < |term| ==> IsJsWhitespace(term[i])
  {
    var head := TrimStart(term);
    if forall i :: 0 <= i < |term| ==> IsJsWhitespace(term[i]) {
      assert head == [] by {
        if head != [] {
          assert false;
        }
      }
    } else {
      var i :| 0 <= i < |term| && !IsJsWhitespace(term[i]);
      assert |head| > 0;
      assert !IsJsWhitespace(head[0]);
    }
  }

  /** The request searchHeroes sends: none for a blank term. */
  function SearchRequest(term: string): (r: Option<Request>)
    ensures r.None? <==> IsBlank(term)
    ensures r.Some? ==> r.value == Request(Get, "api/heroes/?name=" + term, [], None)
  {
    if IsBlank(term) then None else Some(Request(Get, SearchUrl(term), [], None))
  }

  /** The line handleError logs: `HeroService: <operation> failed: <message>`. */
  function FailureLine(operation: string, message: string): (line: string)
    ensures |line| == |LogPrefix| + |operation| + |" failed: "| + |message|
    ensures line[..|LogPrefix|] == LogPrefix
    ensures line[|LogPrefix|..|LogPrefix| + |operation|] == operation
    ensures line[|LogPrefix| + |operation|..|line| - |message|] == " failed: "
    ensures line[|line| - |message|..] == message
  {
    LogLine(operation + " failed: " + message)
  }

  /** A request piped through tap(log the success line) and
      catchError(handleError(operation, fallback)): a success passes its
      value on unchanged, a failure is replaced by the fallback. Either way
      exactly one line is logged and nothing is propagated as an error. */
  function Piped<T>(request: Request, outcome: Outcome<T>, success: T -> string,
                    operation: string, fallback: Option<T>): (c: Call<T>)
    ensures c.request == Some(request) && |c.lines| == 1
    ensures outcome.Ok? ==> c.value == Some(outcome.value) && c.lines == [LogLine(success(outcome.value))]
    ensures outcome.Err? ==> c.value == fallback && c.lines == [FailureLine(operation, outcome.message)]
  {
    match outcome
    case Ok(v) => Call(Some(request), Some(v), [LogLine(success(v))])
    case Err(m) => Call(Some(request), fallback, [FailureLine(operation, m)])
  }

  /** getHeroes(): GET api/heroes; the empty list on failure. */
  function GetHeroesCall(outcome: Outcome<seq<Hero>>): (c: Call<seq<Hero>>)
    ensures c.request == Some(Request(Get, "api/heroes", [], None))
    ensures outcome.Ok? ==> c.value == Some(outcome.value) && c.lines == [LogLine("fetched heroes")]
    ensures outcome.Err? ==> c.value == Some([]) && c.lines == [FailureLine("getHeroes()", outcome.message)]
  {
    Piped(Request(Get, HeroesUrl, [], None), outcome, _ => "fetched heroes", "getHeroes()", Some([]))
  }

  /** getHero(id): GET api/heroes/<id>; absent on failure. */
  function GetHeroCall(id: int, outcome: Outcome<Hero>): (c: Call<Hero>)
    ensures c.request == Some(Request(Get, "api/heroes/" + IdText(id), [], None))
    ensures outcome.Ok? ==> c.value == Some(outcome.value) && c.lines == [LogLine("fetched hero id=" + IdText(id))]
    ensures outcome.Err? ==> c.value == None && c.lines == [FailureLine("getHero(id=" + IdText(id) + ")", outcome.message)]
  {
    Piped(Request(Get, HeroUrl(id), [], None), outcome, _ => "fetched hero id=" + IdText(id),
          "getHero(id=" + IdText(id) + ")", None)
  }

  /** addHero(hero): POST the hero as JSON to api/heroes; the server's hero
      is passed on, but the log line names the id of the hero sent. */
  function AddHeroCall(hero: Hero, outcome: Outcome<Hero>): (c: Call<Hero>)
    ensures c.request == Some(Request(Post, "api/heroes", [Header("Content-Type", "application/json")], Some(hero)))
    ensures outcome.Ok? ==> c.value == Some(outcome.value) && c.lines == [LogLine("added hero w id=" + IdText(hero.id))]
    ensures outcome.Err? ==> c.value == None && c.lines == [FailureLine("addHero()", outcome.message)]
  {
    Piped(Request(Post, HeroesUrl, JsonHeaders, Some(hero)), outcome, (_: Hero) => "added hero w id=" + IdText(hero.id),
          "addHero()", None)
  }

  /** updateHero(hero): PUT the whole hero as JSON to api/heroes (the id
      travels in the body, not the path); absent on failure. */
  function UpdateHeroCall<T>(hero: Hero, outcome: Outcome<T>): (c: Call<T>)
    ensures c.request == Some(Request(Put, "api/heroes", [Header("Content-Type", "application/json")], Some(hero)))
    ensures outcome.Ok? ==> c.value == Some(outcome.value) && c.lines == [LogLine("updated Hero id=" + IdText(hero.id))]
    ensures outcome.Err? ==> c.value == None && c.lines == [FailureLine("updateHero(hero: Hero)", outcome.message)]
  {
    Piped(Request(Put, HeroesUrl, JsonHeaders, Some(hero)), outcome, (_: T) => "updated Hero id=" + IdText(hero.id),
          "updateHero(hero: Hero)", None)
  }

  /** deleteHero(hero or id): DELETE api/heroes/<id> with the JSON headers
      and no body; absent on failure. */
  function DeleteHeroCall(target: HeroOrId, outcome: Outcome<Hero>): (c: Call<Hero>)
    ensures c.request == Some(Request(Delete, "api/heroes/" + IdText(IdOf(target)),
                                      [Header("Content-Type", "application/json")], None))
    ensures outcome.Ok? ==> c.value == Some(outcome.value) && c.lines == [LogLine("deleted Hero id=" + IdText(IdOf(target)))]
    ensures outcome.Err? ==> c.value == None && c.lines == [FailureLine("deleteHero(hero: Hero | number)", outcome.message)]
  {
    var id := IdOf(target);
    Piped(Request(Delete, HeroUrl(id), JsonHeaders, None), outcome, _ => "deleted Hero id=" + IdText(id),
          "deleteHero(hero: Hero | number)", None)
  }

  /** The success line of searchHeroes: whether anything matched. */
  function SearchLine(term: string, heroes: seq<Hero>): (line: string)
    ensures |line| >= |term| + 2 && line[|line| - |term| - 2..] == "\"" + term + "\""
    ensures line[0] == 'f' <==> |heroes| > 0
    ensures |heroes| > 0 ==> |line| == |term| + 24 && line[..23] == "found heroes matching \""
    ensures |heroes| == 0 ==> |line| == |term| + 21 && line[..20] == "no heroes matching \""
  {
    if |heroes| > 0 then "found heroes matching \"" + term + "\"" else "no heroes matching \"" + term + "\""
  }

  /** searchHeroes(term): nothing sent and nothing logged for a blank
      term; otherwise GET api/heroes/?name=<term>, the empty list on
      failure. The outcome is ignored when no request is sent. */
  function SearchHeroesCall(term: string, outcome: Outcome<seq<Hero>>): (c: Call<seq<Hero>>)
    ensures c.request == SearchRequest(term)
    ensures IsBlank(term) ==> c.value == Some([]) && c.lines == []
    ensures !IsBlank(term) && outcome.Ok? ==>
      c.value == Some(outcome.value) &&
      c.lines == [if outcome.value != [] then LogLine("found heroes matching \"" + term + "\"")
                  else LogLine("no heroes matching \"" + term + "\"")]
    ensures !IsBlank(term) && outcome.Err? ==>
      c.value == Some([]) && c.lines == [FailureLine("searchHeroes", outcome.message)]
  {
    match SearchRequest(term)
    case None => Call(None, Some([]), [])
    case Some(request) => Piped(request, outcome, heroes => SearchLine(term, heroes), "searchHeroes", Some([]))
  }

  /** What console.error receives during a call: the error of a failure. */
  function Reported<T>(outcome: Outcome<T>): seq<string> {
    match outcome
    case Ok(_) => []
    case Err(m) => [m]
  }

  /** deleteHero(n) and deleteHero(hero) with hero.id == n are the same call. */
  lemma DeleteByIdOrHeroAgree(n: int, hero: Hero, outcome: Outcome<Hero>)
    requires hero.id == n
    ensures DeleteHeroCall(ById(n), outcome) == DeleteHeroCall(ByHero(hero), outcome)
    ensures DeleteHeroCall(ById(n), outcome).request.value.url == "api/heroes/" + IdText(n)
  {
  }

  /** Every hero has a URL of its own. */
  lemma HeroUrlsDistinct(a: int, b: int)
    ensures HeroUrl(a) == HeroUrl(b) <==> a == b
  {
    if HeroUrl(a) == HeroUrl(b) {
      assert IdText(a) == HeroUrl(a)[11..];
      assert IdText(b) == HeroUrl(b)[11..];
      IdTextInjective(a, b);
    }
  }

  /** A search URL is never the URL of a single hero. */
  lemma SearchUrlIsNoHeroUrl(term: string, id: int)
    ensures SearchUrl(term) != HeroUrl(id)
  {
    assert SearchUrl(term)[11] == '?';
    assert HeroUrl(id)[11] == IdText(id)[0];
  }

  /** addHero logs the id of the hero it was given, not the id the server
      assigned: when the two differ, the line does not name the new id. */
  lemma AddHeroLogsSentId(hero: Hero, created: Hero)
    requires created.id != hero.id
    ensures AddHeroCall(hero, Ok(created)).value == Some(created)
    ensures AddHeroCall(hero, Ok(created)).lines != [LogLine("added hero w id=" + IdText(created.id))]
  {
    var sent, got := "added hero w id=" + IdText(hero.id), "added hero w id=" + IdText(created.id);
    if LogLine(sent) == LogLine(got) {
      assert sent == LogLine(sent)[|LogPrefix|..];
      assert IdText(hero.id) == sent[16..];
      assert IdText(created.id) == got[16..];
      IdTextInjective(hero.id, created.id);
    }
  }

  /** Two messages that differ somewhere give different log lines. */
  lemma LinesDiffer(a: string, b: string, k: nat)
    requires k < |a| && k < |b| && a[k] != b[k]
    ensures [LogLine(a)] != [LogLine(b)]
  {
    assert LogLine(a)[|LogPrefix| + k] == a[k];
    assert LogLine(b)[|LogPrefix| + k] == b[k];
  }

  /** Messages whose fixed beginnings differ give different log lines,
      whatever follows. */
  lemma PrefixesDiffer(p: string, x: string, q: string, y: string, k: nat)
    requires k < |p| && k < |q| && p[k] != q[k]
    ensures [LogLine(p + x)] != [LogLine(q + y)]
  {
    assert (p + x)[k] == p[k] && (q + y)[k] == q[k];
    LinesDiffer(p + x, q + y, k);
  }

  /** A failed read never appends the success line of that read: the one
      line each call logs tells failure from success. */
  lemma FailedReadLogsNoSuccessLine(m: string, id: int, term: string, heroes: seq<Hero>, h: Hero)
    ensures GetHeroesCall(Err(m)).lines != GetHeroesCall(Ok(heroes)).lines
    ensures GetHeroCall(id, Err(m)).lines != GetHeroCall(id, Ok(h)).lines
    ensures !IsBlank(term) ==> SearchHeroesCall(term, Err(m)).lines != SearchHeroesCall(term, Ok(heroes)).lines
  {
    LinesDiffer("getHeroes()" + " failed: " + m, "fetched heroes", 0);
    PrefixesDiffer("getHero(id=", IdText(id) + ")" + " failed: " + m, "fetched hero id=", IdText(id), 0);
    LinesDiffer("searchHeroes" + " failed: " + m, SearchLine(term, heroes), 0);
  }

  /** A failed save never appends the success line of that save. */
  lemma FailedSaveLogsNoSuccessLine(m: string, hero: Hero, target: HeroOrId, h: Hero)
    ensures AddHeroCall(hero, Err(m)).lines != AddHeroCall(hero, Ok(h)).lines
    ensures UpdateHeroCall<Hero>(hero, Err(m)).lines != UpdateHeroCall(hero, Ok(h)).lines
    ensures DeleteHeroCall(target, Err(m)).lines != DeleteHeroCall(target, Ok(h)).lines
  {
    PrefixesDiffer("addHero()" + " failed: ", m, "added hero w id=", IdText(hero.id), 3);
    PrefixesDiffer("updateHero(hero: Hero)" + " failed: ", m, "updated Hero id=", IdText(hero.id), 6);
    PrefixesDiffer("deleteHero(hero: Hero | number)" + " failed: ", m, "deleted Hero id=", IdText(IdOf(target)), 6);
  }

  /** The service: every call logs through the shared MessageService. */
  class HeroService {
    const messageService: MessageService

    /** What console.error has been given, one entry per failed call. */
    ghost var consoleErrors: seq<string>

    constructor (messageService: MessageService)
      ensures this.messageService == messageService && consoleErrors == []
    {
      this.messageService := messageService;
      consoleErrors := [];
    }

    /** Logs a HeroService message with the MessageService. */
    method Log(message: string)
      modifies messageService
      ensures messageService.messages == old(messageService.messages) + [LogLine(message)]
    {
      messageService.Add(LogPrefix + message);
    }

    /** Reports a failed operation and yields `result` in its place. */
    method HandleError<T>(operation: string, result: Option<T>, message: string) returns (r: Option<T>)
      modifies this, messageService
      ensures r == result
      ensures consoleErrors == old(consoleErrors) + [message]
      ensures messageService.messages == old(messageService.messages) + [FailureLine(operation, message)]
    {
      consoleErrors := consoleErrors + [message];
      Log(operation + " failed: " + message);
      r := result;
    }

    method GetHeroes(outcome: Outcome<seq<Hero>>) returns (request: Request, heroes: Option<seq<Hero>>)
      modifies this, messageService
      ensures Some(request) == GetHeroesCall(outcome).request && heroes == GetHeroesCall(outcome).value
      ensures messageService.messages == old(messageService.messages) + GetHeroesCall(outcome).lines
      ensures consoleErrors == old(consoleErrors) + Reported(outcome)
    {
      request := Request(Get, HeroesUrl, [], None);
      match outcome {
        case Ok(v) =>
          Log("fetched heroes");
          heroes := Some(v);
        case Err(m) =>
          heroes := HandleError("getHeroes()", Some([]), m);
      }
    }

    method GetHero(id: int, outcome: Outcome<Hero>) returns (request: Request, hero: Option<Hero>)
      modifies this, messageService
      ensures Some(request) == GetHeroCall(id, outcome).request && hero == GetHeroCall(id, outcome).value
      ensures messageService.messages == old(messageService.messages) + GetHeroCall(id, outcome).lines
      ensures consoleErrors == old(consoleErrors) + Reported(outcome)
    {
      request := Request(Get, HeroUrl(id), [], None);
      match outcome {
        case Ok(v) =>
          Log("fetched hero id=" + IdText(id));
          hero := Some(v);
        case Err(m) =>
          hero := HandleError("getHero(id=" + IdText(id) + ")", None, m);
      }
    }

    method AddHero(hero: Hero, outcome: Outcome<Hero>) returns (request: Request, created: Option<Hero>)
      modifies this, messageService
      ensures Some(request) == AddHeroCall(hero, outcome).request && created == AddHeroCall(hero, outcome).value
      ensures messageService.messages == old(messageService.messages) + AddHeroCall(hero, outcome).lines
      ensures consoleErrors == old(consoleErrors) + Reported(outcome)
    {
      request := Request(Post, HeroesUrl, JsonHeaders, Some(hero));
      match outcome {
        case Ok(newHero) =>
          Log("added hero w id=" + IdText(hero.id));
          created := Some(newHero);
        case Err(m) =>
          created := HandleError("addHero()", None, m);
      }
    }

    method UpdateHero<T>(hero: Hero, outcome: Outcome<T>) returns (request: Request, response: Option<T>)
      modifies this, messageService
      ensures Some(request) == UpdateHeroCall(hero, outcome).request && response == UpdateHeroCall(hero, outcome).value
      ensures messageService.messages == old(messageService.messages) + UpdateHeroCall(hero, outcome).lines
      ensures consoleErrors == old(consoleErrors) + Reported(outcome)
    {
      request := Request(Put, HeroesUrl, JsonHeaders, Some(hero));
      match outcome {
        case Ok(v) =>
          Log("updated Hero id=" + IdText(hero.id));
          response := Some(v);
        case Err(m) =>
          response := HandleError("updateHero(hero: Hero)", None, m);
      }
    }

    method DeleteHero(target: HeroOrId, outcome: Outcome<Hero>) returns (request: Request, deleted: Option<Hero>)
      modifies this, messageService
      ensures Some(request) == DeleteHeroCall(target, outcome).request && deleted == DeleteHeroCall(target, outcome).value
      ensures messageService.messages == old(messageService.messages) + DeleteHeroCall(target, outcome).lines
      ensures consoleErrors == old(consoleErrors) + Reported(outcome)
    {
      var id := IdOf(target);
      request := Request(Delete, HeroUrl(id), JsonHeaders, None);
      match outcome {
        case Ok(v) =>
          Log("deleted Hero id=" + IdText(id));
          deleted := Some(v);
        case Err(m) =>
          deleted := HandleError("deleteHero(hero: Hero | number)", None, m);
      }
    }

    method SearchHeroes(term: string, outcome: Outcome<seq<Hero>>) returns (request: Option<Request>, heroes: Option<seq<Hero>>)
      modifies this, messageService
      ensures request == SearchHeroesCall(term, outcome).request && heroes == SearchHeroesCall(term, outcome).value
      ensures messageService.messages == old(messageService.messages) + SearchHeroesCall(term, outcome).lines
      ensures consoleErrors == old(consoleErrors) + (if IsBlank(term) then [] else Reported(outcome))
    {
      if Trim(term) == "" {
        return None, Some([]);
      }
      request := Some(Request(Get, SearchUrl(term), [], None));
      ghost var c := SearchHeroesCall(term, outcome);
      match outcome {
        case Ok(x) =>
          if |x| > 0 {
            Log("found heroes matching \"" + term + "\"");
            assert c.lines == [LogLine("found heroes matching \"" + term + "\"")];
          } else {
            Log("no heroes matching \"" + term + "\"");
            assert c.lines == [LogLine("no heroes matching \"" + term + "\"")];
          }
          heroes := Some(x);
        case Err(m) =>
          heroes := HandleError("searchHeroes", Some([]), m);
          assert c.lines == [FailureLine("searchHeroes", m)];
      }
    }
  }
}

=== FILE: message_service.dfy ===
/** The message log shared by the whole application: an append-only list
    of strings that can be emptied. */
module Messages {
  import opened Common

  class MessageService {
    /** The cache of messages, oldest first. */
    var messages: seq<string>

    constructor ()
      ensures messages == []
    {
      messages := [];
    }

    /** Appends one message after all earlier ones. */
    method Add(message: string)
      modifies this
      ensures messages == old(messages) + [message]
      ensures |messages| == |old(messages)| + 1
    {
      messages := messages + [message];
    }

    /** Empties the cache, whatever it held. */
    method Clear()
      modifies this
      ensures messages == []
    {
      messages := [];
    }
  }

  /** One call made on a MessageService. */
  datatype LogCall = Add(message: string) | Clear

  /** Makes the calls `calls` on `log`, in order. */
  method Apply(log: MessageService, calls: seq<LogCall>)
    modifies log
    ensures log.messages == Replay(old(log.messages), calls)
  {
    var i := 0;
    while i < |calls|
      invariant 0 <= i <= |calls|
      invariant log.messages == Replay(old(log.messages), calls[..i])
    {
      assert calls[..i + 1][..i] == calls[..i];
      if calls[i].Add? {
        log.Add(calls[i].message);
      } else {
        log.Clear();
      }
      i := i + 1;
    }
    assert calls[..|calls|] == calls;
  }

  /** The messages held after the calls `calls`, made in order, starting
      from `messages`: the effect of MessageService.Add and
      MessageService.Clear, one call at a time. */
  function Replay(messages: seq<string>, calls: seq<LogCall>): (r: seq<string>)
    ensures forall i :: 0 <= i < |r| ==> r[i] in messages || Add(r[i]) in calls
    ensures Clear !in calls ==> |r| == |messages| + |calls| && r[..|messages|] == messages
    ensures calls != [] && Last(calls) == Clear ==> r == []
    decreases |calls|
  {
    if calls == [] then messages
    else
      var before := Replay(messages, calls[..|calls| - 1]);
      match Last(calls)
      case Add(m) => before + [m]
      case Clear => []
  }

  /** The messages of the Add calls among `calls`, in call order. */
  function Added(calls: seq<LogCall>): seq<string> {
    if calls == [] then []
    else (if calls[0].Add? then [calls[0].message] else []) + Added(calls[1..])
  }

  lemma {:induction false} AddedAppend(a: seq<LogCall>, b: seq<LogCall>)
    ensures Added(a + b) == Added(a) + Added(b)
    decreases |a|
  {
    if a != [] {
      AddedAppend(a[1..], b);
      assert (a + b)[1..] == a[1..] + b;
    } else {
      assert a + b == b;
    }
  }

  /** Replaying two batches of calls is replaying the second from where
      the first left off. */
  lemma {:induction false} ReplayAppend(messages: seq<string>, a: seq<LogCall>, b: seq<LogCall>)
    ensures Replay(messages, a + b) == Replay(Replay(messages, a), b)
    decreases |b|
  {
    if b == [] {
      assert a + b == a;
    } else {
      ReplayAppend(messages, a, b[..|b| - 1]);
      assert (a + b)[..|a + b| - 1] == a + b[..|b| - 1];
    }
  }

  /** With no Clear among the calls, every added message is appended after
      the ones already held, in call order. */
  lemma {:induction false} ReplayWithoutClear(messages: seq<string>, calls: seq<LogCall>)
    requires forall k :: 0 <= k < |calls| ==> calls[k].Add?
    ensures Replay(messages, calls) == messages + Added(calls)
    decreases |calls|
  {
    if calls != [] {
      var init, e := calls[..|calls| - 1], Last(calls);
      ReplayWithoutClear(messages, init);
      assert Replay(messages, calls) == Replay(messages, init) + [e.message];
      AddedAppend(init, [e]);
      assert init + [e] == calls;
      assert Added([e]) == [e.message];
    }
  }

  /** After a Clear followed only by Add calls, the log holds exactly the
      messages added since that Clear, in order, and nothing older. */
  lemma SinceLastClear(messages: seq<string>, calls: seq<LogCall>, i: nat)
    requires i < |calls| && calls[i] == Clear
    requires forall k :: i < k < |calls| ==> calls[k].Add?
    ensures Replay(messages, calls) == Added(calls[i + 1..])
  {
    var before, after := calls[..i + 1], calls[i + 1..];
    assert calls == before + after;
    ReplayAppend(messages, before, after);
    assert Replay(messages, before) == [];
    ReplayWithoutClear([], after);
  }

  /** Each Add makes the log exactly one entry longer. */
  lemma AddGrowsByOne(messages: seq<string>, calls: seq<LogCall>, m: string)
    ensures |Replay(messages, calls + [Add(m)])| == |Replay(messages, calls)| + 1
    ensures Replay(messages, calls + [Add(m)])[..|Replay(messages, calls)|] == Replay(messages, calls)
  {
    assert (calls + [Add(m)])[..|calls|] == calls;
  }

  /** Clearing twice leaves the same log as clearing once. */
  lemma ClearIdempotent(messages: seq<string>, calls: seq<LogCall>)
    ensures Replay(messages, calls + [Clear, Clear]) == Replay(messages, calls + [Clear]) == []
  {
    assert (calls + [Clear, Clear])[..|calls| + 1] == calls + [Clear];
  }
}
